=== FILE: README.md ===
# Babloo_Tooth device discovery, modelled in Dafny

This project models the Bluetooth screen of the Babloo_Tooth Android app, `MainActivity`. The screen has two buttons.
**Scan** checks the scan permissions, the radio and the GPS provider. It then clears the result list, registers a
broadcast receiver and starts a discovery. Every receiver turns each device-found broadcast into a
`name (address)` entry and appends it unless the list already holds that exact string.
**Connect** walks a decision tree: adapter, CONNECT permission, radio, ADVERTISE permission. It ends in a
300-second discoverability request. One permission-result callback serves every consent prompt the screen issues.
That callback retries the scan only when both SCAN and FINE_LOCATION come back granted.

The platform is reduced to values:

- `Platform.Env` holds the adapter, the granted permissions, the radio switch, the location service and the GPS switch.
- Every handler is a pure function. It returns the new screen state (`Activity.State`: the environment, the
  discovering flag, the number of registered receivers, the result list) together with the effects handed to the OS.
  Effects are permission prompts, enable and discoverable requests, the settings redirect, discovery start and
  cancel, list-view notifications and notices.
- `Session` strings the handlers into an event machine. Its world is the screen state plus the prompt still
  waiting for the user's answer. Its lemmas range over whole event sequences.

Modules, following the source's structure:

- `platform.dfy` (`Platform`): permissions, environment, notices and effects.
- `device_list.dfy` (`DeviceList`): the found-broadcast receiver and the result list.
- `connect.dfy` (`Connect`): the connect click handler, `connectToBluetooth` and `makeDeviceDiscoverable`.
- `activity.dfy` (`Activity`): the scan click handler, `scanNearbyDevices`, the permission callback, and
  delivery of a broadcast to all registered receivers.
- `session.dfy` (`Session`): the event machine and its invariants.
- `scenarios.dfy` (`Scenarios`): concrete runs.

The model keeps these details of the code:

- A device whose platform name is null is listed as `null (address)`. This is Java's rendering of a null string in
  concatenation, not `Unknown`.
- `Unknown` is used only when CONNECT is not granted. `Permission Denied` is used only when the name lookup throws.
- A scan with a missing permission always requests both SCAN and FINE_LOCATION, not only the missing kinds.
- The GPS guard is skipped when the location system service is absent.
- The callback reads the result map with a false default. So the answer to a CONNECT-only or ADVERTISE-only prompt
  never retries anything; it only shows the "Required permissions denied" notice.
- The second CONNECT check in `connectToBluetooth` cannot be reached. The model keeps it as a branch that
  verifies as dead.
- Each scan that passes its guards registers a fresh receiver and none is ever unregistered, although a comment in the code says
  "Register receiver only once". The model counts receivers and delivers every broadcast to each of them.
  `DeviceList.BroadcastIsReceiveOnce` proves the duplication never shows in the list, provided every receiver
  sees the same CONNECT state and the same name-lookup outcome (see `DeviceList.Broadcast` under "## Left out").

The entry string is the identity. `DeviceList.ConnectChangesEntry` shows that one device seen with and without
CONNECT yields two entries, unless its platform name is itself `Unknown`. For arbitrary strings, two devices with different addresses can render to the same
entry: name `a (b` with address `c`, and name `a` with address `b (c`. `DeviceList.DistinctAddressesDistinctEntries`
proves this cannot happen for addresses in the usual `XX:XX:XX:XX:XX:XX` form.

## Model

| member | source | states |
|---|---|---|
| DeviceList.ResolveName | app/src/main/java/com/example/bablootooth/MainActivity.java:199-207 | the sentinel rules are given by the definition; its contract states that the name is `Unknown` exactly when CONNECT is missing or the platform's own name is `Unknown` |
| DeviceList.DisplayText | app/src/main/java/com/example/bablootooth/MainActivity.java:209 | no ensures: the definition, name, " (", address, ")", is the specification; its layout is stated by DisplayTextParts |
| DeviceList.EntryFor | app/src/main/java/com/example/bablootooth/MainActivity.java:199-209 | no ensures: the definition, the resolved name rendered with the address, is the specification |
| DeviceList.ConnectChangesEntry | app/src/main/java/com/example/bablootooth/MainActivity.java:199-209 | the entries of one device with and without CONNECT coincide exactly when the platform names it `Unknown` |
| DeviceList.Broadcast | app/src/main/java/com/example/bablootooth/MainActivity.java:192-217 | per-receiver delivery is given by the definition; its contract states that with no receiver nothing changes, the list is append-only, and every new entry is the entry of the broadcast's device |
| DeviceList.Contains | app/src/main/java/com/example/bablootooth/MainActivity.java:210 | the membership test answers true exactly when the string is in the list |
| DeviceList.AddIfAbsent | app/src/main/java/com/example/bablootooth/MainActivity.java:210-213 | the list keeps its prefix and grows by at most one; the new string ends up in it; it grows exactly when the string was absent, and then the string is last; the set of entries is the old set plus the string; no duplicates are introduced |
| DeviceList.Receive | app/src/main/java/com/example/bablootooth/MainActivity.java:195-216 | a broadcast with another action or a null device leaves the list alone; otherwise the device's entry is in the list afterwards, and any new entry is that entry; append-only and order-preserving; the inserted-row report is the last index exactly when a row was added; duplicate-freedom is kept |
| DeviceList.DisplayTextParts | app/src/main/java/com/example/bablootooth/MainActivity.java:209 | an entry splits into the name, " (", the address and ")" at positions fixed by the name's length |
| DeviceList.ReceiveIdempotent | app/src/main/java/com/example/bablootooth/MainActivity.java:210-213 | handling the same broadcast a second time changes nothing and reports no row |
| DeviceList.BroadcastIsReceiveOnce | app/src/main/java/com/example/bablootooth/MainActivity.java:192-217 | with k >= 1 registered receivers, a broadcast has exactly the effect of one receiver handling it once |
| DeviceList.BroadcastWithoutReceivers | app/src/main/java/com/example/bablootooth/MainActivity.java:192-217 | with no receiver registered, a broadcast changes nothing |
| DeviceList.BroadcastKeepsNoDuplicates | app/src/main/java/com/example/bablootooth/MainActivity.java:192-217 | delivering a broadcast to any number of receivers keeps the list duplicate-free |
| DeviceList.DisplayTextSameName | app/src/main/java/com/example/bablootooth/MainActivity.java:209 | with the same name, two entries are equal exactly when the addresses are equal |
| DeviceList.DisplayTextSameAddress | app/src/main/java/com/example/bablootooth/MainActivity.java:199-209 | with the same address, two entries are equal exactly when the resolved names are equal |
| DeviceList.EqualLengthNamesEqualAddresses | app/src/main/java/com/example/bablootooth/MainActivity.java:209 | equal entries whose names have equal length have equal addresses |
| DeviceList.AdjacentSeparatorsDiffer | app/src/main/java/com/example/bablootooth/MainActivity.java:209 | names whose lengths differ by one never give the same entry |
| DeviceList.LongerNameNeedsParenthesis | app/src/main/java/com/example/bablootooth/MainActivity.java:209 | a shorter name can give the same entry as a longer one only if its address contains '(' |
| DeviceList.DistinctAddressesDistinctEntries | app/src/main/java/com/example/bablootooth/MainActivity.java:197-210 | devices with distinct MAC-form addresses get distinct entries, whatever the permission and name outcomes |
| Connect.MakeDeviceDiscoverable | app/src/main/java/com/example/bablootooth/MainActivity.java:137-152 | the discoverability request is made exactly when ADVERTISE is granted and the platform does not throw; its duration is 300; when made, the effects are exactly the request followed by the ready-to-pair notice; otherwise they are exactly the one notice of the failing path, advertise-not-granted without ADVERTISE and advertise-denied when the platform throws |
| Connect.ConnectToBluetooth | app/src/main/java/com/example/bablootooth/MainActivity.java:103-135 | without CONNECT only the permission-not-granted notice; with CONNECT, unless the platform throws on the path actually taken, the effects are those of the first unmet condition among radio and ADVERTISE, or the discoverable request; a security exception from the radio query, or from the enable request with the radio off, gives only the access-denied notice; one from the discoverability request, with everything else in place, gives only the advertise-denied notice; the discoverability request needs CONNECT, ADVERTISE and a running radio, and the enable request needs CONNECT and a radio that is off |
| Connect.ConnectClicked | app/src/main/java/com/example/bablootooth/MainActivity.java:77-91 | a missing adapter gives only the not-supported notice; missing CONNECT gives one CONNECT-only prompt; any discoverability request is for 300 seconds |
| Connect.ConnectOutcomes | app/src/main/java/com/example/bablootooth/MainActivity.java:77-148 | without platform faults a click has exactly the effects of the first unmet condition among adapter, CONNECT, radio, ADVERTISE, or the discoverable request; the five outcomes are pairwise distinct |
| Connect.DiscoverableExactlyWhenReady | app/src/main/java/com/example/bablootooth/MainActivity.java:77-152 | the discoverability window is requested if and only if adapter, CONNECT, radio and ADVERTISE are all present and the platform throws nowhere on the way |
| Activity.ScanNearbyDevices | app/src/main/java/com/example/bablootooth/MainActivity.java:157-225 | every failing guard leaves the state unchanged and starts nothing; a missing permission issues one prompt for both SCAN and FINE_LOCATION; radio off only shows a notice; GPS off shows a notice and redirects; the settings redirect happens exactly when only the GPS guard fails; a receiver is registered if and only if all guards pass; then the list is empty, the discovering flag is the platform's answer, and the effects are exactly the cancel when a discovery was running, then the refresh, the start, and the notice saying started exactly when the platform accepted the start; only a failed permission guard prompts |
| Activity.DiscoveryEffects | app/src/main/java/com/example/bablootooth/MainActivity.java:184-224 | a passing scan emits exactly, in order, the cancel when a discovery runs, the refresh, the start, and the notice matching the platform's answer; so exactly one start, and no settings redirect or other effect |
| Activity.DiscoveryEffectsRequestNothing | app/src/main/java/com/example/bablootooth/MainActivity.java:184-224 | effects made only of cancel, refresh, start and scanning notices hold no permission request |
| Activity.ScanRedirectsOnce | app/src/main/java/com/example/bablootooth/MainActivity.java:176-182 | the scan opens the location settings exactly once when only the GPS guard fails, and never otherwise |
| Activity.ScanClicked | app/src/main/java/com/example/bablootooth/MainActivity.java:93-100 | without an adapter, only the not-supported notice; otherwise exactly the scan |
| Activity.GetOrFalse | app/src/main/java/com/example/bablootooth/MainActivity.java:47-48 | no ensures: the definition, the map lookup with a false default, is the specification; GrantsScanKinds states what the two lookups decide |
| Activity.GrantsScanKinds | app/src/main/java/com/example/bablootooth/MainActivity.java:47-50 | the two false-default lookups agree with requiring the result to grant both scan kinds |
| Activity.OnPermissionResult | app/src/main/java/com/example/bablootooth/MainActivity.java:45-55 | the callback retries the scan exactly when both scan kinds are granted in the result; otherwise the state is unchanged and only the denial notice is shown |
| Activity.OnDeviceFound | app/src/main/java/com/example/bablootooth/MainActivity.java:192-217 | a broadcast reaches every registered receiver; with none, nothing changes; with one or more, the list is exactly what one receiver handling it once leaves, so only the device's own entry can be appended and only when absent; the list is append-only and grows by at most one; exactly one row insertion is reported when it grows; no duplicates are introduced |
| Activity.MissingScanKeysNeverRetry | app/src/main/java/com/example/bablootooth/MainActivity.java:45-55 | a result lacking either scan key, as for a CONNECT-only or ADVERTISE-only request, never retries |
| Activity.AnyDenialBlocksScan | app/src/main/java/com/example/bablootooth/MainActivity.java:45-55 | if any scan kind is denied, nothing changes and no discovery starts |
| Activity.RescanReplacesDiscovery | app/src/main/java/com/example/bablootooth/MainActivity.java:184-189 | a scan over a running discovery cancels it first, leaves exactly one running when the start is accepted, and leaves the list empty |
| Session.PromptResult | app/src/main/java/com/example/bablootooth/MainActivity.java:45-48 | the result handed to the callback has exactly the requested kinds as keys; the callback's false-default lookup of a requested kind agrees with the grants the platform records for the same answer |
| Session.AfterPrompt | app/src/main/java/com/example/bablootooth/MainActivity.java:45-48 | an answer changes only the granted permissions, never the adapter, radio, location service or GPS; grants only grow, by exactly the requested kinds the user granted |
| Session.ScanStarts | app/src/main/java/com/example/bablootooth/MainActivity.java:184-219 | a scan starts one discovery if it passes its guards and none otherwise |
| Session.TapScanStep | app/src/main/java/com/example/bablootooth/MainActivity.java:93-100 | a scan tap keeps the invariant; it never changes the environment; it registers one receiver per discovery start |
| Session.TapConnectStep | app/src/main/java/com/example/bablootooth/MainActivity.java:77-91 | a connect tap changes nothing of the screen's state and starts no discovery |
| Session.AnswerStep | app/src/main/java/com/example/bablootooth/MainActivity.java:45-55 | answering a prompt keeps the invariant; receivers grow exactly by the discoveries started |
| Session.FoundStep | app/src/main/java/com/example/bablootooth/MainActivity.java:192-217 | a found broadcast keeps the invariant and starts nothing |
| Session.Apply | app/src/main/java/com/example/bablootooth/MainActivity.java:77-219 | every event keeps the list duplicate-free and keeps a pending prompt tied to a present adapter; receivers grow exactly by the discoveries started |
| Session.ConnectStartsNothing | app/src/main/java/com/example/bablootooth/MainActivity.java:103-152 | the connect flow never starts a discovery |
| Session.Run | app/src/main/java/com/example/bablootooth/MainActivity.java:184-219 | over any event sequence the list stays duplicate-free; the receiver count grows by exactly the number of discoveries started, since receivers are never unregistered |
| Session.SinglePromptNeverScans | app/src/main/java/com/example/bablootooth/MainActivity.java:83-87 | answering a CONNECT-only or ADVERTISE-only prompt, whatever is granted, leaves list, discovery and receivers alone and shows only the denial notice |
| Session.GrantedScanPromptDoesNotReprompt | app/src/main/java/com/example/bablootooth/MainActivity.java:50-51 | when the answer leaves both scan kinds granted, the retry passes the permission guard and issues no new prompt; if the other guards pass, it registers one receiver and clears the list |
| Session.FoundTwiceIsFoundOnce | app/src/main/java/com/example/bablootooth/MainActivity.java:209-213 | the same broadcast delivered twice leaves the world as after the first delivery, with nothing reported |
| Session.ApplyProvenance | app/src/main/java/com/example/bablootooth/MainActivity.java:188-213 | an event adds at most the entry of its own found device |
| Session.RunProvenance | app/src/main/java/com/example/bablootooth/MainActivity.java:188-213 | after any event sequence, every entry was listed at the start or is the entry of a device carried by one of the found events |
| Scenarios.ScanClearsAndStarts | app/src/main/java/com/example/bablootooth/MainActivity.java:184-219 | with everything granted and on, a scan empties the list, starts discovering and registers one receiver |
| Scenarios.ScanThenFindPixel | app/src/main/java/com/example/bablootooth/MainActivity.java:197-213 | then the broadcast for "Pixel" at AA:BB:CC:DD:EE:FF lists exactly "Pixel (AA:BB:CC:DD:EE:FF)" and reports row 0 |
| Scenarios.TwoScansTwoReceivers | app/src/main/java/com/example/bablootooth/MainActivity.java:192-193 | two scans register two receivers |
| Scenarios.FoundOnEmptyList | app/src/main/java/com/example/bablootooth/MainActivity.java:192-217 | on an empty list with CONNECT granted, a broadcast to any number of receivers lists one entry |
| Scenarios.TwoScansOneEntry | app/src/main/java/com/example/bablootooth/MainActivity.java:192-217 | with two receivers the device is listed once, and a repeated broadcast changes nothing |
| Scenarios.UnknownWithoutConnect | app/src/main/java/com/example/bablootooth/MainActivity.java:199-200 | without CONNECT the entry is "Unknown (AA:BB:CC:DD:EE:FF)" |
| Scenarios.PermissionDeniedWhenLookupThrows | app/src/main/java/com/example/bablootooth/MainActivity.java:201-206 | a name lookup that throws gives "Permission Denied (AA:BB:CC:DD:EE:FF)" |
| Scenarios.NullWhenNoName | app/src/main/java/com/example/bablootooth/MainActivity.java:202-209 | a null name gives "null (AA:BB:CC:DD:EE:FF)" |
| Scenarios.PixelWithConnect | app/src/main/java/com/example/bablootooth/MainActivity.java:202-209 | with CONNECT the platform's name is used |
| Scenarios.LocationOffRedirectsOnce | app/src/main/java/com/example/bablootooth/MainActivity.java:176-182 | with GPS off a scan changes nothing, starts nothing and redirects to the location settings exactly once |

## Left out

- DeviceList.Broadcast: all receivers of one broadcast are assumed to see the same CONNECT state and the same
  name-lookup outcome, and the k deliveries happen back to back. In the code each receiver calls
  `checkSelfPermission` and `getName` itself, so a name that resolves, or a permission that changes, between two
  receivers' calls would list the device twice from a single broadcast; that interleaving is not modelled.
- DeviceAdapter.java (list-view binding: inflate, set text, item count) is not part of this model. The list itself
  stands for what the view shows; `RefreshList` and `ItemInserted` stand for the two update calls.
- `onCreate` layout, edge-to-edge insets, button wiring and the activity lifecycle are UI scaffolding.
- The login screen is not part of this model.
- Intents, `startActivity`, broadcast timing and permission dialogs are operating-system effects. They appear
  only as effect values. Receiver registration is not an effect value: it is the `receivers` counter of
  `Activity.State`, and a broadcast reaches that many receivers. Whether `startDiscovery` succeeds is an input (`started`). The user's
  answer to a prompt is an input (`grants`).
- Security exceptions thrown by the platform are inputs (`Connect.Faults`, `DeviceList.Throws`), each mapped to
  the notice or sentinel its catch block produces.
- Notice wording is replaced by the `Platform.Notice` enumeration.
- Revoking a permission from the system settings is left out. On Android it restarts the app's process, which is
  lifecycle, so granted permissions only grow in `Session`.
- A prompt issued while another is pending replaces it in `Session`. The platform's handling of overlapping
  prompts is not modelled.
- A missing adapter would make `scanNearbyDevices` dereference null. `Activity.ScanNearbyDevices` and
  `Activity.OnPermissionResult` therefore require the adapter, as their callers in the source guarantee.
  `Session.Valid` carries the fact that a prompt only exists when an adapter does.

=== FILE: activity.dfy ===
/** The discovery screen's own state and the handlers that change it: the
    scan button, the scan guard chain, the permission-result callback and
    the delivery of a found broadcast to every registered receiver.
 */
module Activity {
  import opened Platform
  import opened DeviceList

  /** The screen's state: what it observes of the platform, whether a
      discovery is running, how many found-receivers it has registered and
      the result list shared with the list view. */
  datatype State = State(env: Env, discovering: bool, receivers: nat, devices: seq<string>)

  /** A handler's result: the state after it and what it handed to the platform. */
  datatype Step = Step(state: State, effects: seq<Effect>)

  /** Both scan permissions are granted. */
  predicate ScanPermitted(env: Env) {
    env.Has(BluetoothScan) && env.Has(AccessFineLocation)
  }

  /** A location service exists and its GPS provider is off. */
  predicate LocationBlocked(env: Env) {
    env.locationServicePresent && !env.gpsEnabled
  }

  /** Every guard of the scan passes. */
  predicate ScanReady(env: Env) {
    ScanPermitted(env) && env.radioEnabled && !LocationBlocked(env)
  }

  /** The scan: request both scan permissions if either is missing, give up
      with a notice if the radio is off, send the user to the location
      settings if GPS is off; otherwise cancel a running discovery, clear
      the list, register one more receiver and start discovering.
      `started` is whether the platform accepts the discovery start. */
  function ScanNearbyDevices(s: State, started: bool): (r: Step)
    requires s.env.adapterPresent
    ensures r.state.env == s.env
    ensures !ScanReady(s.env) ==> r.state == s
    ensures !ScanReady(s.env) ==> StartDiscovery !in r.effects && RefreshList !in r.effects
    ensures ScanReady(s.env) <==> r.state.receivers == s.receivers + 1
    ensures !ScanPermitted(s.env) ==> r.effects == [RequestPermissions(ScanKinds)]
    ensures ScanPermitted(s.env) && !s.env.radioEnabled ==> r.effects == [Show(BluetoothDisabled)]
    ensures ScanPermitted(s.env) && s.env.radioEnabled && LocationBlocked(s.env) ==>
              r.effects == [Show(EnableLocation), OpenLocationSettings]
    ensures ScanReady(s.env) ==> r.state.devices == [] && (r.state.discovering <==> started)
    ensures ScanReady(s.env) ==> (CancelDiscovery in r.effects <==> s.discovering)
    ensures ScanReady(s.env) ==> |r.effects| >= 3 && r.effects[|r.effects| - 2] == StartDiscovery
    ensures ScanReady(s.env) ==>
              && RefreshList in r.effects
              && r.effects[|r.effects| - 1] == Show(if started then ScanningStarted else ScanningFailed)
    ensures RequestIn(r.effects).Some? ==> !ScanPermitted(s.env)
    ensures OpenLocationSettings in r.effects <==>
              ScanPermitted(s.env) && s.env.radioEnabled && LocationBlocked(s.env)
    ensures ScanReady(s.env) ==>
              forall e | e in r.effects :: DiscoveryEffect(e)
    ensures ScanReady(s.env) ==>
              && |r.effects| == (if s.discovering then 4 else 3)
              && r.effects[|r.effects| - 3] == RefreshList
              && (s.discovering ==> r.effects[0] == CancelDiscovery)
  {
    if !ScanPermitted(s.env) then
      Step(s, [RequestPermissions(ScanKinds)])
    else if !s.env.radioEnabled then
      Step(s, [Show(BluetoothDisabled)])
    else if LocationBlocked(s.env) then
      Step(s, [Show(EnableLocation), OpenLocationSettings])
    else
      var effects := DiscoveryEffects(s.discovering, started);
      DiscoveryEffectsRequestNothing(effects);
      Step(State(s.env, started, s.receivers + 1, []), effects)
  }

  /** The effects a scan that passed its guards may hand to the platform. */
  predicate DiscoveryEffect(e: Effect) {
    || e.CancelDiscovery? || e.RefreshList? || e.StartDiscovery?
    || e == Show(ScanningStarted) || e == Show(ScanningFailed)
  }

  /** Effects of a passing scan hold no permission request. */
  lemma DiscoveryEffectsRequestNothing(effects: seq<Effect>)
    requires forall e | e in effects :: DiscoveryEffect(e)
    ensures RequestIn(effects).None?
  {
  }

  /** What a scan that passed its guards hands to the platform: a cancel of
      the running discovery if there is one, the list refresh, the start,
      and the notice saying whether the start was accepted. */
  function DiscoveryEffects(discovering: bool, started: bool): (effects: seq<Effect>)
    ensures |effects| >= 3 && effects[|effects| - 2] == StartDiscovery
    ensures effects[|effects| - 1] == Show(if started then ScanningStarted else ScanningFailed)
    ensures RefreshList in effects
    ensures CancelDiscovery in effects <==> discovering
    ensures forall e | e in effects :: DiscoveryEffect(e)
    ensures OpenLocationSettings !in effects
    ensures multiset(effects)[StartDiscovery] == 1
    ensures |effects| == if discovering then 4 else 3
    ensures effects[|effects| - 3] == RefreshList
    ensures discovering ==> effects[0] == CancelDiscovery
  {
    var tail := [RefreshList, StartDiscovery, Show(if started then ScanningStarted else ScanningFailed)];
    assert multiset(tail)[StartDiscovery] == 1;
    if discovering then [CancelDiscovery] + tail else tail
  }

  /** The scan redirects to the location settings exactly once when only
      the GPS guard fails, and never otherwise. */
  lemma ScanRedirectsOnce(s: State, started: bool)
    requires s.env.adapterPresent
    ensures multiset(ScanNearbyDevices(s, started).effects)[OpenLocationSettings] ==
              if ScanPermitted(s.env) && s.env.radioEnabled && LocationBlocked(s.env) then 1 else 0
  {
    var effects := ScanNearbyDevices(s, started).effects;
    if ScanReady(s.env) {
      assert OpenLocationSettings !in effects;
    }
  }

  /** The scan button's click handler. */
  function ScanClicked(s: State, started: bool): (r: Step)
    ensures !s.env.adapterPresent ==> r == Step(s, [Show(BluetoothNotSupported)])
    ensures s.env.adapterPresent ==> r == ScanNearbyDevices(s, started)
  {
    if !s.env.adapterPresent then Step(s, [Show(BluetoothNotSupported)])
    else ScanNearbyDevices(s, started)
  }

  /** A permission-result map lookup; a kind that was not requested is not in the map. */
  function GetOrFalse(result: map<Permission, bool>, p: Permission): bool {
    if p in result then result[p] else false
  }

  /** The result grants every kind in `kinds`. */
  predicate GrantsAll(result: map<Permission, bool>, kinds: seq<Permission>) {
    forall i | 0 <= i < |kinds| :: kinds[i] in result && result[kinds[i]]
  }

  /** Looking up the two scan kinds with a false default agrees with asking
      that the result grant every kind of the scan request. */
  lemma GrantsScanKinds(result: map<Permission, bool>)
    ensures GrantsAll(result, ScanKinds) <==>
              GetOrFalse(result, BluetoothScan) && GetOrFalse(result, AccessFineLocation)
  {
    if !GetOrFalse(result, BluetoothScan) {
      assert ScanKinds[0] == BluetoothScan;
    } else if !GetOrFalse(result, AccessFineLocation) {
      assert ScanKinds[1] == AccessFineLocation;
    }
  }

  /** The permission-result callback, shared by every request the screen
      makes: it retries the scan when both scan kinds came back granted
      and otherwise only shows a notice. */
  function OnPermissionResult(s: State, result: map<Permission, bool>, started: bool): (r: Step)
    requires s.env.adapterPresent
    ensures GrantsAll(result, ScanKinds) ==> r == ScanNearbyDevices(s, started)
    ensures !GrantsAll(result, ScanKinds) ==> r == Step(s, [Show(RequiredPermissionsDenied)])
  {
    GrantsScanKinds(result);
    if GetOrFalse(result, BluetoothScan) && GetOrFalse(result, AccessFineLocation) then
      ScanNearbyDevices(s, started)
    else
      Step(s, [Show(RequiredPermissionsDenied)])
  }

  /** A found broadcast reaches every registered receiver; each checks the
      CONNECT permission as it is now. Each inserted row is reported to the
      list view. */
  function OnDeviceFound(s: State, intent: Intent): (r: Step)
    ensures r.state.env == s.env && r.state.discovering == s.discovering
    ensures r.state.receivers == s.receivers
    ensures s.receivers == 0 ==> r == Step(s, [])
    ensures s.receivers >= 1 ==> r.state.devices == Receive(s.env.Has(BluetoothConnect), s.devices, intent).devices
    ensures s.receivers >= 1 && intent.isActionFound && intent.device.Some? ==>
              EntryFor(s.env.Has(BluetoothConnect), intent.device.value) in r.state.devices
    ensures |s.devices| <= |r.state.devices| <= |s.devices| + 1
    ensures r.state.devices[..|s.devices|] == s.devices
    ensures r.effects == if |r.state.devices| > |s.devices| then [ItemInserted(|s.devices|)] else []
    ensures NoDuplicates(s.devices) ==> NoDuplicates(r.state.devices)
  {
    var connect := s.env.Has(BluetoothConnect);
    var reaction := Broadcast(connect, s.devices, intent, s.receivers);
    if s.receivers == 0 then
      Step(s, [])
    else
      BroadcastIsReceiveOnce(connect, s.devices, intent, s.receivers);
      Step(s.(devices := reaction.devices), InsertNotices(reaction.inserted))
  }

  /** One row-inserted notice to the list view per inserted index. */
  function InsertNotices(indices: seq<nat>): (effects: seq<Effect>)
    ensures |effects| == |indices|
    ensures forall i | 0 <= i < |indices| :: effects[i] == ItemInserted(indices[i])
  {
    if |indices| == 0 then [] else [ItemInserted(indices[0])] + InsertNotices(indices[1..])
  }

  /** A result that does not mention both scan kinds, such as the answer to
      a CONNECT-only or ADVERTISE-only request, never retries the scan. */
  lemma MissingScanKeysNeverRetry(s: State, result: map<Permission, bool>, started: bool)
    requires s.env.adapterPresent
    requires BluetoothScan !in result || AccessFineLocation !in result
    ensures OnPermissionResult(s, result, started) == Step(s, [Show(RequiredPermissionsDenied)])
  {
  }

  /** Gating is all or nothing: if any scan kind is denied, nothing in the
      state changes and no discovery starts. */
  lemma AnyDenialBlocksScan(s: State, result: map<Permission, bool>, started: bool, p: Permission)
    requires s.env.adapterPresent
    requires p in ScanKinds && p in result && !result[p]
    ensures OnPermissionResult(s, result, started).state == s
    ensures StartDiscovery !in OnPermissionResult(s, result, started).effects
  {
  }

  /** Starting a scan while one is running leaves one discovery running
      exactly when the platform accepts the new one, and the list empty
      until a device is found. */
  lemma RescanReplacesDiscovery(s: State)
    requires s.env.adapterPresent && ScanReady(s.env) && s.discovering
    ensures var r := ScanNearbyDevices(s, true);
            r.state.discovering && r.state.devices == [] && r.effects[0] == CancelDiscovery
  {
  }
}

=== FILE: connect.dfy ===
/** The connect button: make the local radio discoverable, asking for
    whatever is missing first. It never changes the screen's own state; all
    it does is hand requests and notices to the platform.
 */
module Connect {
  import opened Platform

  /** Where the platform throws a security exception despite the permission
      check having passed: the radio query, the enable request, the
      discoverability request. */
  datatype Faults = Faults(radioQueryThrows: bool, enableThrows: bool, discoverableThrows: bool)

  const NoFaults := Faults(false, false, false)

  /** Ask the platform to make the radio discoverable for the fixed window. */
  function MakeDeviceDiscoverable(env: Env, faults: Faults): (effects: seq<Effect>)
    ensures |effects| >= 1
    ensures RequestDiscoverable(DiscoverableSeconds) in effects <==>
              env.Has(BluetoothAdvertise) && !faults.discoverableThrows
    ensures forall d :: RequestDiscoverable(d) in effects ==> d == 300
    ensures Show(ReadyToPair) in effects ==> RequestDiscoverable(DiscoverableSeconds) in effects
    ensures RequestDiscoverable(DiscoverableSeconds) in effects ==>
              effects == [RequestDiscoverable(DiscoverableSeconds), Show(ReadyToPair)]
    ensures RequestDiscoverable(DiscoverableSeconds) !in effects ==>
              effects == [Show(if env.Has(BluetoothAdvertise) then AdvertiseDenied else AdvertisePermissionNotGranted)]
  {
    if !env.Has(BluetoothAdvertise) then [Show(AdvertisePermissionNotGranted)]
    else if faults.discoverableThrows then [Show(AdvertiseDenied)]
    else [RequestDiscoverable(DiscoverableSeconds), Show(ReadyToPair)]
  }

  /** The five outcomes of a click when the platform raises nothing. */
  datatype Outcome = NotSupported | AskConnect | AskEnable | AskAdvertise | Discoverable

  /** The outcome a click should have, decided by the first unmet condition
      in the order adapter, CONNECT, radio, ADVERTISE. */
  function ExpectedOutcome(env: Env): Outcome {
    if !env.adapterPresent then NotSupported
    else if !env.Has(BluetoothConnect) then AskConnect
    else if !env.radioEnabled then AskEnable
    else if !env.Has(BluetoothAdvertise) then AskAdvertise
    else Discoverable
  }

  /** The effects that stand for each outcome. */
  function EffectsOf(o: Outcome): seq<Effect> {
    match o
    case NotSupported => [Show(BluetoothNotSupported)]
    case AskConnect => [RequestPermissions([BluetoothConnect])]
    case AskEnable => [RequestEnable]
    case AskAdvertise => [RequestPermissions([BluetoothAdvertise])]
    case Discoverable => [RequestDiscoverable(DiscoverableSeconds), Show(ReadyToPair)]
  }

  /** Turn the radio on if it is off, otherwise make it discoverable once
      ADVERTISE is granted. A security exception from the platform ends
      the attempt with a notice. */
  function ConnectToBluetooth(env: Env, faults: Faults): (effects: seq<Effect>)
    requires env.adapterPresent
    ensures RequestDiscoverable(DiscoverableSeconds) in effects ==>
              env.Has(BluetoothConnect) && env.Has(BluetoothAdvertise) && env.radioEnabled
    ensures RequestEnable in effects ==> env.Has(BluetoothConnect) && !env.radioEnabled
    ensures env.Has(BluetoothConnect) && faults == NoFaults ==> effects == EffectsOf(ExpectedOutcome(env))
    ensures env.Has(BluetoothConnect) && (faults.radioQueryThrows || (!env.radioEnabled && faults.enableThrows)) ==>
              effects == [Show(BluetoothAccessDenied)]
    ensures && env.Has(BluetoothConnect) && !faults.radioQueryThrows && env.radioEnabled
            && env.Has(BluetoothAdvertise) && faults.discoverableThrows ==>
              effects == [Show(AdvertiseDenied)]
    ensures !env.Has(BluetoothConnect) ==> effects == [Show(ConnectPermissionNotGranted)]
    ensures && env.Has(BluetoothConnect) && !faults.radioQueryThrows
            && (!env.radioEnabled ==> !faults.enableThrows)
            && (env.radioEnabled && env.Has(BluetoothAdvertise) ==> !faults.discoverableThrows) ==>
              effects == EffectsOf(ExpectedOutcome(env))
  {
    if !env.Has(BluetoothConnect) then [Show(ConnectPermissionNotGranted)]
    else if !env.Has(BluetoothConnect) then
      // This repeats the CONNECT check above, so it can never be reached.
      assert false; []
    else if faults.radioQueryThrows then [Show(BluetoothAccessDenied)]
    else if !env.radioEnabled then
      if faults.enableThrows then [Show(BluetoothAccessDenied)] else [RequestEnable]
    else if !env.Has(BluetoothAdvertise) then [RequestPermissions([BluetoothAdvertise])]
    else MakeDeviceDiscoverable(env, faults)
  }

  /** The connect button's click handler. */
  function ConnectClicked(env: Env, faults: Faults): (effects: seq<Effect>)
    ensures !env.adapterPresent ==> effects == [Show(BluetoothNotSupported)]
    ensures env.adapterPresent && !env.Has(BluetoothConnect) ==>
              effects == [RequestPermissions([BluetoothConnect])]
    ensures forall d :: RequestDiscoverable(d) in effects ==> d == DiscoverableSeconds
  {
    if !env.adapterPresent then [Show(BluetoothNotSupported)]
    else if !env.Has(BluetoothConnect) then [RequestPermissions([BluetoothConnect])]
    else ConnectToBluetooth(env, faults)
  }

  /** Without platform faults a click has exactly the effects of its
      expected outcome, and distinct outcomes have distinct effects, so
      every click lands in exactly one of the five. */
  lemma ConnectOutcomes(env: Env)
    ensures ConnectClicked(env, NoFaults) == EffectsOf(ExpectedOutcome(env))
    ensures forall o1: Outcome, o2: Outcome :: EffectsOf(o1) == EffectsOf(o2) ==> o1 == o2
  {
  }

  /** The discoverability window is requested exactly when nothing is
      missing: an adapter, both permissions and a running radio, and the
      platform lets the request through. */
  lemma DiscoverableExactlyWhenReady(env: Env, faults: Faults)
    ensures RequestDiscoverable(DiscoverableSeconds) in ConnectClicked(env, faults) <==>
              && env.adapterPresent && env.Has(BluetoothConnect) && env.radioEnabled
              && env.Has(BluetoothAdvertise) && !faults.radioQueryThrows && !faults.discoverableThrows
  {
  }
}

=== FILE: device_list.dfy ===
/** The discovery result list and the device-found receiver that feeds it.
    The list is the insertion-ordered sequence of display strings shared with
    the list view; an entry's identity is the whole string, name included.
 */
module DeviceList {
  import opened Platform

  /** What the platform's name lookup on a found device does: it returns a
      name, which may be null, or it throws a security exception. */
  datatype NameLookup = Returns(name: Option<string>) | Throws

  /** A found device: its hardware address (readable without permission)
      and the outcome of asking for its name. */
  datatype Device = Device(address: string, lookup: NameLookup)

  /** A broadcast delivered to a receiver: whether its action is
      ACTION_FOUND, and the device extra, which may be null. */
  datatype Intent = Intent(isActionFound: bool, device: Option<Device>)

  const Unknown: string := "Unknown"
  const PermissionDenied: string := "Permission Denied"
  /** What Java string concatenation renders a null name as. */
  const NullName: string := "null"

  /** No entry occurs twice. */
  ghost predicate NoDuplicates(list: seq<string>) {
    forall i, j | 0 <= i < j < |list| :: list[i] != list[j]
  }

  /** The name shown for a device: a sentinel when the CONNECT permission is
      missing or the lookup throws, otherwise whatever the platform returned. */
  function ResolveName(connectGranted: bool, lookup: NameLookup): (name: string)
    ensures name == Unknown <==> !connectGranted || lookup == Returns(Some(Unknown))
  {
    if !connectGranted then Unknown
    else match lookup
      case Throws => PermissionDenied
      case Returns(None) => NullName
      case Returns(Some(name)) => name
  }

  /** The entry text: the name, a space, and the address in parentheses. */
  function DisplayText(name: string, address: string): string {
    name + " (" + address + ")"
  }

  /** An entry splits back into the name, the separator, the address and
      the closing parenthesis, at positions fixed by the name's length. */
  lemma DisplayTextParts(name: string, address: string)
    ensures var text := DisplayText(name, address);
            && |text| == |name| + |address| + 3
            && text[..|name|] == name
            && text[|name|..|name| + 2] == " ("
            && text[|name| + 2..|text| - 1] == address
            && text[|text| - 1] == ')'
  {
  }

  /** The entry a receiver builds for a device. */
  function EntryFor(connectGranted: bool, device: Device): string {
    DisplayText(ResolveName(connectGranted, device.lookup), device.address)
  }

  /** Linear membership test over the list, as the list's `contains` does. */
  function Contains(list: seq<string>, text: string): (b: bool)
    ensures b <==> text in list
  {
    if |list| == 0 then false
    else if list[0] == text then true
    else
      var b := Contains(list[1..], text);
      assert list == [list[0]] + list[1..];
      b
  }

  /** Appends `text` unless the list already holds it. */
  function AddIfAbsent(list: seq<string>, text: string): (r: seq<string>)
    ensures text in r
    ensures forall x :: x in r <==> x in list || x == text
    ensures |list| <= |r| <= |list| + 1
    ensures r[..|list|] == list
    ensures |r| == |list| + 1 <==> text !in list
    ensures |r| == |list| + 1 ==> r[|list|] == text
    ensures NoDuplicates(list) ==> NoDuplicates(r)
  {
    if Contains(list, text) then list else list + [text]
  }

  /** One receiver's reaction to one broadcast: the list after it, and the
      row index it reports as inserted, if it inserted one. */
  datatype Reaction = Reaction(devices: seq<string>, inserted: seq<nat>)

  /** The receiver's handler: a found device with a non-null extra is
      rendered and appended when its entry is new; anything else is ignored. */
  function Receive(connectGranted: bool, list: seq<string>, intent: Intent): (r: Reaction)
    ensures !intent.isActionFound || intent.device.None? ==> r == Reaction(list, [])
    ensures intent.isActionFound && intent.device.Some? ==>
              EntryFor(connectGranted, intent.device.value) in r.devices
    ensures forall x :: x in r.devices && x !in list ==>
              intent.device.Some? && x == EntryFor(connectGranted, intent.device.value)
    ensures |list| <= |r.devices| <= |list| + 1
    ensures r.devices[..|list|] == list
    ensures r.inserted == if |r.devices| == |list| + 1 then [|list|] else []
    ensures NoDuplicates(list) ==> NoDuplicates(r.devices)
  {
    if intent.isActionFound && intent.device.Some? then
      var text := EntryFor(connectGranted, intent.device.value);
      var devices := AddIfAbsent(list, text);
      Reaction(devices, if |devices| == |list| + 1 then [|devices| - 1] else [])
    else
      Reaction(list, [])
  }

  /** One broadcast handed to `receivers` registered receivers in turn, each
      running the same handler on the shared list; the inserted rows of all
      of them are collected in order. */
  function Broadcast(connectGranted: bool, list: seq<string>, intent: Intent, receivers: nat): (r: Reaction)
    ensures receivers == 0 ==> r == Reaction(list, [])
    ensures |list| <= |r.devices| && r.devices[..|list|] == list
    ensures forall x :: x in r.devices && x !in list ==>
              intent.device.Some? && x == EntryFor(connectGranted, intent.device.value)
    decreases receivers
  {
    if receivers == 0 then Reaction(list, [])
    else
      var first := Receive(connectGranted, list, intent);
      var rest := Broadcast(connectGranted, first.devices, intent, receivers - 1);
      Reaction(rest.devices, first.inserted + rest.inserted)
  }

  /** Handling the same broadcast twice changes nothing the second time. */
  lemma ReceiveIdempotent(connectGranted: bool, list: seq<string>, intent: Intent)
    ensures var once := Receive(connectGranted, list, intent);
            Receive(connectGranted, once.devices, intent) == Reaction(once.devices, [])
  {
  }

  /** However many receivers are registered, as long as there is one, a
      broadcast has exactly the effect of one receiver handling it once. */
  lemma {:induction false} BroadcastIsReceiveOnce(connectGranted: bool, list: seq<string>, intent: Intent, receivers: nat)
    requires receivers >= 1
    ensures Broadcast(connectGranted, list, intent, receivers) == Receive(connectGranted, list, intent)
    decreases receivers
  {
    var once := Receive(connectGranted, list, intent);
    if receivers > 1 {
      BroadcastIsReceiveOnce(connectGranted, once.devices, intent, receivers - 1);
      ReceiveIdempotent(connectGranted, list, intent);
    }
  }

  /** Without a registered receiver a broadcast is lost. */
  lemma BroadcastWithoutReceivers(connectGranted: bool, list: seq<string>, intent: Intent)
    ensures Broadcast(connectGranted, list, intent, 0) == Reaction(list, [])
  {
  }

  /** Broadcasting to any number of receivers keeps the list duplicate-free. */
  lemma {:induction false} BroadcastKeepsNoDuplicates(connectGranted: bool, list: seq<string>, intent: Intent, receivers: nat)
    requires NoDuplicates(list)
    ensures NoDuplicates(Broadcast(connectGranted, list, intent, receivers).devices)
    decreases receivers
  {
    if receivers > 0 {
      BroadcastKeepsNoDuplicates(connectGranted, Receive(connectGranted, list, intent).devices, intent, receivers - 1);
    }
  }

  /** The parts of an entry can be read back from it. */
  lemma DisplayTextSameName(name: string, a1: string, a2: string)
    ensures DisplayText(name, a1) == DisplayText(name, a2) <==> a1 == a2
  {
    var t1, t2 := DisplayText(name, a1), DisplayText(name, a2);
    DisplayTextParts(name, a1);
    DisplayTextParts(name, a2);
    if t1 == t2 {
      assert a1 == t1[|name| + 2..|t1| - 1] == t2[|name| + 2..|t2| - 1] == a2;
    }
  }

  /** Two entries for the same address are the same entry exactly when the
      names resolved to the same string: a device seen once with and once
      without the CONNECT permission is listed twice. */
  lemma DisplayTextSameAddress(n1: string, n2: string, address: string)
    ensures DisplayText(n1, address) == DisplayText(n2, address) <==> n1 == n2
  {
    var t1, t2 := DisplayText(n1, address), DisplayText(n2, address);
    DisplayTextParts(n1, address);
    DisplayTextParts(n2, address);
    if t1 == t2 {
      assert |n1| == |n2|;
      assert n1 == t1[..|n1|] == t2[..|n2|] == n2;
    }
  }

  /** The CONNECT permission changes a device's entry unless the platform's
      name for it is itself the "Unknown" sentinel: a device seen once with
      and once without the permission is then listed twice. */
  lemma ConnectChangesEntry(device: Device)
    ensures EntryFor(true, device) == EntryFor(false, device) <==> device.lookup == Returns(Some(Unknown))
  {
    DisplayTextSameAddress(ResolveName(true, device.lookup), Unknown, device.address);
  }

  /** A Bluetooth hardware address in its usual text form, six upper-case
      hexadecimal octets separated by colons. */
  ghost predicate IsMacAddress(a: string) {
    && |a| == 17
    && forall i | 0 <= i < |a| :: if i % 3 == 2 then a[i] == ':' else a[i] in "0123456789ABCDEF"
  }

  /** Names of equal length split equal entries at the same place, so the
      addresses agree. */
  lemma EqualLengthNamesEqualAddresses(n1: string, a1: string, n2: string, a2: string)
    requires |n1| == |n2|
    requires DisplayText(n1, a1) == DisplayText(n2, a2)
    ensures a1 == a2
  {
    var t := DisplayText(n1, a1);
    DisplayTextParts(n1, a1);
    DisplayTextParts(n2, a2);
    assert a1 == t[|n1| + 2..|t| - 1] == a2;
  }

  /** Names whose lengths differ by one never give the same entry: the
      longer name's separator would start on the shorter one's '('. */
  lemma AdjacentSeparatorsDiffer(n1: string, a1: string, n2: string, a2: string)
    requires |n2| == |n1| + 1
    ensures DisplayText(n1, a1) != DisplayText(n2, a2)
  {
    var t1, t2 := DisplayText(n1, a1), DisplayText(n2, a2);
    DisplayTextParts(n1, a1);
    DisplayTextParts(n2, a2);
    if |t1| == |t2| {
      assert t1[|n1| + 1] == t1[|n1|..|n1| + 2][1] == '(';
      assert t2[|n1| + 1] == t2[|n2|..|n2| + 2][0] == ' ';
    }
  }

  /** A longer name cannot produce the same entry as a shorter one unless
      the shorter name's address holds an opening parenthesis. */
  lemma LongerNameNeedsParenthesis(n1: string, a1: string, n2: string, a2: string)
    requires |n1| < |n2|
    requires DisplayText(n1, a1) == DisplayText(n2, a2)
    ensures '(' in a1
  {
    if |n2| == |n1| + 1 {
      AdjacentSeparatorsDiffer(n1, a1, n2, a2);
    } else {
      var t, t2 := DisplayText(n1, a1), DisplayText(n2, a2);
      DisplayTextParts(n1, a1);
      DisplayTextParts(n2, a2);
      var k := |n2| + 1;
      assert t2[k] == t2[|n2|..|n2| + 2][1] == '(';
      assert a1[k - |n1| - 2] == t[|n1| + 2..|t| - 1][k - |n1| - 2] == t[k];
    }
  }

  /** Entries for distinct well-formed addresses are distinct whatever the
      names resolved to; so two real devices are never merged into one row. */
  lemma DistinctAddressesDistinctEntries(c1: bool, d1: Device, c2: bool, d2: Device)
    requires IsMacAddress(d1.address) && IsMacAddress(d2.address)
    requires d1.address != d2.address
    ensures EntryFor(c1, d1) != EntryFor(c2, d2)
  {
    var n1, n2 := ResolveName(c1, d1.lookup), ResolveName(c2, d2.lookup);
    if DisplayText(n1, d1.address) == DisplayText(n2, d2.address) {
      if |n1| == |n2| {
        EqualLengthNamesEqualAddresses(n1, d1.address, n2, d2.address);
      } else if |n1| < |n2| {
        LongerNameNeedsParenthesis(n1, d1.address, n2, d2.address);
        MacAddressHasNoParenthesis(d1.address);
      } else {
        LongerNameNeedsParenthesis(n2, d2.address, n1, d1.address);
        MacAddressHasNoParenthesis(d2.address);
      }
    }
  }

  lemma MacAddressHasNoParenthesis(a: string)
    requires IsMacAddress(a)
    ensures '(' !in a
  {
    forall i | 0 <= i < |a|
      ensures a[i] != '('
    {
    }
  }
}

=== FILE: platform.dfy ===
/** The parts of the Android platform the device-discovery screen observes
    and drives, reduced to plain values: the runtime permissions it checks,
    the radio and location switches, and the intents, requests and transient
    notices a handler can hand back to the operating system.
 */
module Platform {

  /** A Java reference that may be null. */
  datatype Option<+T> = None | Some(value: T)

  /** The four runtime permissions the screen checks. */
  datatype Permission =
    | BluetoothConnect
    | BluetoothAdvertise
    | BluetoothScan
    | AccessFineLocation

  /** Both kinds a scan needs; they are always requested together, in this order. */
  const ScanKinds: seq<Permission> := [BluetoothScan, AccessFineLocation]

  /** The discoverability window the connect flow asks for, in seconds. */
  const DiscoverableSeconds: int := 300

  /** What a handler can observe of the device. Only the user or the
      operating system changes it; the screen's handlers only read it. */
  datatype Env = Env(
    adapterPresent: bool,          // the default Bluetooth adapter is not null
    granted: set<Permission>,      // permissions currently granted to the app
    radioEnabled: bool,            // the adapter reports itself enabled
    locationServicePresent: bool,  // the location system service is not null
    gpsEnabled: bool)              // the GPS location provider is enabled
  {
    predicate Has(p: Permission) {
      p in granted
    }
  }

  /** Transient notices (toasts) the screen shows; the wording is left out. */
  datatype Notice =
    | BluetoothNotSupported
    | ConnectPermissionNotGranted
    | BluetoothAccessDenied
    | AdvertisePermissionNotGranted
    | ReadyToPair
    | AdvertiseDenied
    | RequiredPermissionsDenied
    | BluetoothDisabled
    | EnableLocation
    | ScanningStarted
    | ScanningFailed

  /** Everything a handler hands to the platform besides its own state change. */
  datatype Effect =
    | Show(notice: Notice)
    | RequestPermissions(kinds: seq<Permission>)  // one consent prompt for these kinds
    | RequestEnable                               // the "turn Bluetooth on" system activity
    | RequestDiscoverable(seconds: int)           // the discoverability system activity
    | OpenLocationSettings                        // the location-source settings screen
    | CancelDiscovery
    | StartDiscovery
    | RefreshList                                 // the list view redraws everything
    | ItemInserted(index: nat)                    // the list view inserts one row

  /** The permission request among `effects`, if any (a handler issues at most one). */
  function RequestIn(effects: seq<Effect>): (r: Option<seq<Permission>>)
    ensures r.Some? <==> exists i :: 0 <= i < |effects| && effects[i].RequestPermissions?
    ensures r.Some? ==> RequestPermissions(r.value) in effects
  {
    if |effects| == 0 then None
    else if effects[0].RequestPermissions? then Some(effects[0].kinds)
    else
      var rest := RequestIn(effects[1..]);
      assert forall i :: 1 <= i < |effects| ==> effects[i] == effects[1..][i - 1];
      rest
  }
}

=== FILE: scenarios.dfy ===
/** Concrete runs of the discovery screen: a device found after a scan, the
    same broadcast delivered twice, the name sentinels, and a scan with
    location services switched off.
 */
module Scenarios {
  import opened Platform
  import opened DeviceList
  import opened Activity
  import opened Session

  const Address: string := "AA:BB:CC:DD:EE:FF"
  const Pixel := Device(Address, Returns(Some("Pixel")))
  const AllGranted: set<Permission> := {BluetoothConnect, BluetoothAdvertise, BluetoothScan, AccessFineLocation}

  /** A device with an adapter, the radio on and GPS on, with the given
      permissions and list, no discovery running, and no receiver yet. */
  function Ready(granted: set<Permission>, devices: seq<string>): (w: World)
    ensures w.app.env.adapterPresent && w.app.env.radioEnabled && !LocationBlocked(w.app.env)
    ensures w.app.receivers == 0 && w.pending.None?
  {
    World(State(Env(true, granted, true, true, true), false, 0, devices), None)
  }

  /** The world after a scan with everything granted and switched on. */
  function Scanned(w: World): World
    requires Valid(w)
  {
    Apply(w, TapScan(true)).world
  }

  /** Everything granted and switched on: a scan clears the list, starts a
      discovery and registers a receiver. */
  lemma ScanClearsAndStarts(devices: seq<string>)
    requires NoDuplicates(devices)
    ensures var r := Apply(Ready(AllGranted, devices), TapScan(true));
            && r.world.app.devices == [] && r.world.app.discovering && r.world.app.receivers == 1
            && StartDiscovery in r.log
  {
  }

  /** After that scan, the found device is listed as its name and address,
      and the list view is told about row 0. */
  lemma ScanThenFindPixel(devices: seq<string>)
    requires NoDuplicates(devices)
    ensures var r := Apply(Scanned(Ready(AllGranted, devices)), Found(Intent(true, Some(Pixel))));
            && r.world.app.devices == ["Pixel (AA:BB:CC:DD:EE:FF)"]
            && r.log == [ItemInserted(0)]
  {
    ScanClearsAndStarts(devices);
    PixelWithConnect();
    BroadcastIsReceiveOnce(true, [], Intent(true, Some(Pixel)), 1);
  }

  /** Two scans in a row register two receivers and leave the list empty. */
  lemma TwoScansTwoReceivers()
    ensures var w := Scanned(Scanned(Ready(AllGranted, [])));
            && w.app.receivers == 2 && w.app.devices == [] && w.app.env.Has(BluetoothConnect)
  {
  }

  /** On an empty list with CONNECT granted, a broadcast reaching any
      number of receivers lists the device's name and address once. */
  lemma FoundOnEmptyList(w: World, d: Device)
    requires Valid(w) && w.app.receivers >= 1 && w.app.devices == [] && w.app.env.Has(BluetoothConnect)
    ensures Apply(w, Found(Intent(true, Some(d)))).world.app.devices == [EntryFor(true, d)]
  {
  }

  /** The broadcast then reaches both receivers, yet the device is listed
      once, and delivering it again changes nothing. */
  lemma TwoScansOneEntry()
    ensures var w := Scanned(Scanned(Ready(AllGranted, [])));
            var once := Apply(w, Found(Intent(true, Some(Pixel))));
            && once.world.app.devices == ["Pixel (AA:BB:CC:DD:EE:FF)"]
            && Apply(once.world, Found(Intent(true, Some(Pixel)))).world == once.world
  {
    var w := Scanned(Scanned(Ready(AllGranted, [])));
    TwoScansTwoReceivers();
    FoundOnEmptyList(w, Pixel);
    PixelWithConnect();
    FoundTwiceIsFoundOnce(w, Intent(true, Some(Pixel)));
  }

  /** Without the CONNECT permission the name is the "Unknown" sentinel. */
  lemma UnknownWithoutConnect()
    ensures EntryFor(false, Pixel) == "Unknown (AA:BB:CC:DD:EE:FF)"
  {
  }

  /** With CONNECT granted, a name lookup that throws gives "Permission Denied". */
  lemma PermissionDeniedWhenLookupThrows()
    ensures EntryFor(true, Device(Address, Throws)) == "Permission Denied (AA:BB:CC:DD:EE:FF)"
  {
  }

  /** With CONNECT granted, a lookup that returns no name gives Java's rendering of null. */
  lemma NullWhenNoName()
    ensures EntryFor(true, Device(Address, Returns(None))) == "null (AA:BB:CC:DD:EE:FF)"
  {
  }

  /** With CONNECT granted, the platform's name is shown. */
  lemma PixelWithConnect()
    ensures EntryFor(true, Pixel) == "Pixel (AA:BB:CC:DD:EE:FF)"
  {
  }

  /** With GPS off the scan leaves the list alone, starts nothing and
      redirects to the location settings exactly once. */
  lemma LocationOffRedirectsOnce(devices: seq<string>)
    requires NoDuplicates(devices)
    ensures var w := World(State(Env(true, AllGranted, true, true, false), false, 0, devices), None);
            var r := Apply(w, TapScan(true));
            && r.world == w
            && multiset(r.log)[OpenLocationSettings] == 1
            && StartDiscovery !in r.log
  {
  }
}

=== FILE: session.dfy ===
/** The discovery screen over time: a sequence of user and platform events
    applied to the screen's state together with the consent prompt the user
    has not answered yet.
 */
module Session {
  import opened Platform
  import opened DeviceList
  import opened Connect
  import opened Activity

  /** The screen's state and the permission kinds of the prompt on screen, if any. */
  datatype World = World(app: State, pending: Option<seq<Permission>>)

  /** What can happen to the screen. */
  datatype Event =
    | TapScan(started: bool)                           // `started`: the platform accepts a discovery start
    | TapConnect(faults: Faults)
    | Answer(grants: set<Permission>, started: bool)   // the user answers the pending prompt
    | Found(intent: Intent)                            // the platform broadcasts a found device
    | DiscoveryFinished                                // the platform ends the running discovery
    | Switches(radioEnabled: bool, gpsEnabled: bool)   // the user toggles the radio or GPS elsewhere

  /** What every reachable world satisfies: the list is duplicate-free, and
      a prompt can only be pending on a device with an adapter, because
      only handlers that have found one issue prompts. */
  ghost predicate Valid(w: World) {
    && NoDuplicates(w.app.devices)
    && (w.pending.Some? ==> w.app.env.adapterPresent)
  }

  /** The world after an event and what the event handed to the platform. */
  datatype Trace = Trace(world: World, log: seq<Effect>)

  /** The platform's permissions after the user answered a prompt. */
  function AfterPrompt(env: Env, kinds: seq<Permission>, grants: set<Permission>): (r: Env)
    ensures r == env.(granted := r.granted) && env.granted <= r.granted
    ensures forall k :: r.Has(k) <==> env.Has(k) || (k in kinds && k in grants)
  {
    env.(granted := env.granted + (set k | k in kinds && k in grants))
  }

  /** The map the platform hands to the callback: one key per requested
      kind, true when it was already granted or the user granted it now. */
  function PromptResult(env: Env, kinds: seq<Permission>, grants: set<Permission>): (result: map<Permission, bool>)
    ensures result.Keys == set k | k in kinds
    ensures forall k | k in result :: result[k] <==> k in env.granted || k in grants
    ensures forall k | k in kinds :: GetOrFalse(result, k) <==> AfterPrompt(env, kinds, grants).Has(k)
  {
    map k | k in kinds :: k in env.granted || k in grants
  }

  /** A new prompt replaces the pending one; otherwise the pending one stays. */
  function NextPending(pending: Option<seq<Permission>>, effects: seq<Effect>): Option<seq<Permission>> {
    match RequestIn(effects)
    case Some(kinds) => Some(kinds)
    case None => pending
  }

  /** How many discoveries `effects` start. */
  function Starts(effects: seq<Effect>): nat {
    multiset(effects)[StartDiscovery]
  }

  /** How many discoveries the handler's effects start: one for a scan that
      passed its guards, none otherwise. */
  lemma ScanStarts(s: State, started: bool)
    requires s.env.adapterPresent
    ensures Starts(ScanNearbyDevices(s, started).effects) == if ScanReady(s.env) then 1 else 0
  {
  }

  /** A tap on the scan button; a prompt it issues becomes the pending one. */
  function TapScanStep(w: World, started: bool): (r: Trace)
    requires Valid(w)
    ensures Valid(r.world)
    ensures r.world.app.env == w.app.env
    ensures r.world.app.receivers == w.app.receivers + Starts(r.log)
  {
    var step := ScanClicked(w.app, started);
    if w.app.env.adapterPresent then
      ScanStarts(w.app, started);
      Trace(World(step.state, NextPending(w.pending, step.effects)), step.effects)
    else
      Trace(World(step.state, w.pending), step.effects)
  }

  /** A tap on the connect button: it changes nothing but the pending prompt. */
  function TapConnectStep(w: World, faults: Faults): (r: Trace)
    requires Valid(w)
    ensures Valid(r.world)
    ensures r.world.app == w.app
    ensures Starts(r.log) == 0
  {
    var effects := ConnectClicked(w.app.env, faults);
    ConnectStartsNothing(w.app.env, faults);
    Trace(World(w.app, NextPending(w.pending, effects)), effects)
  }

  /** The user answers the pending prompt: the platform records the grants,
      hands the per-kind result to the callback, and the prompt is gone
      unless the callback issues a new one. With no prompt pending there is
      nothing to answer. */
  function AnswerStep(w: World, grants: set<Permission>, started: bool): (r: Trace)
    requires Valid(w)
    ensures Valid(r.world)
    ensures r.world.app.env.adapterPresent == w.app.env.adapterPresent
    ensures r.world.app.receivers == w.app.receivers + Starts(r.log)
  {
    if w.pending.None? then Trace(w, [])
    else
      var kinds := w.pending.value;
      var app := w.app.(env := AfterPrompt(w.app.env, kinds, grants));
      var step := OnPermissionResult(app, PromptResult(w.app.env, kinds, grants), started);
      ScanStarts(app, started);
      Trace(World(step.state, RequestIn(step.effects)), step.effects)
  }

  /** A found broadcast, delivered to every registered receiver. */
  function FoundStep(w: World, intent: Intent): (r: Trace)
    requires Valid(w)
    ensures Valid(r.world)
    ensures r.world.app.env == w.app.env && r.world.pending == w.pending
    ensures r.world.app.receivers == w.app.receivers
    ensures Starts(r.log) == 0
  {
    var step := OnDeviceFound(w.app, intent);
    Trace(World(step.state, w.pending), step.effects)
  }

  /** One event. Receivers are registered by passing scans only, and each
      passing scan starts exactly one discovery. */
  function Apply(w: World, e: Event): (r: Trace)
    requires Valid(w)
    ensures Valid(r.world)
    ensures r.world.app.env.adapterPresent == w.app.env.adapterPresent
    ensures r.world.app.receivers == w.app.receivers + Starts(r.log)
  {
    match e
    case TapScan(started) => TapScanStep(w, started)
    case TapConnect(faults) => TapConnectStep(w, faults)
    case Answer(grants, started) => AnswerStep(w, grants, started)
    case Found(intent) => FoundStep(w, intent)
    case DiscoveryFinished =>
      Trace(w.(app := w.app.(discovering := false)), [])
    case Switches(radio, gps) =>
      Trace(w.(app := w.app.(env := w.app.env.(radioEnabled := radio, gpsEnabled := gps))), [])
  }

  /** The connect button never starts a discovery. */
  lemma ConnectStartsNothing(env: Env, faults: Faults)
    ensures Starts(ConnectClicked(env, faults)) == 0
  {
  }

  /** A whole event sequence, with everything handed to the platform in order. */
  function Run(w: World, events: seq<Event>): (r: Trace)
    requires Valid(w)
    ensures Valid(r.world)
    ensures r.world.app.receivers == w.app.receivers + Starts(r.log)
    decreases |events|
  {
    if |events| == 0 then Trace(w, [])
    else
      var first := Apply(w, events[0]);
      var rest := Run(first.world, events[1..]);
      Trace(rest.world, first.log + rest.log)
  }

  /** Answering a CONNECT-only or ADVERTISE-only prompt never scans: the
      result lacks the scan kinds, so whatever the user grants, the list,
      the discovery and the receivers stay as they were and the only thing
      shown is the denial notice. */
  lemma SinglePromptNeverScans(w: World, p: Permission, grants: set<Permission>, started: bool)
    requires Valid(w) && w.pending == Some([p])
    requires p == BluetoothConnect || p == BluetoothAdvertise
    ensures var r := Apply(w, Answer(grants, started));
            && r.world.app.devices == w.app.devices
            && r.world.app.discovering == w.app.discovering
            && r.world.app.receivers == w.app.receivers
            && r.world.pending.None?
            && r.log == [Show(RequiredPermissionsDenied)]
  {
  }

  /** When the answer leaves both scan kinds granted, the callback's retry
      passes the permission guard, so it never prompts again: there is no
      prompt loop. */
  lemma GrantedScanPromptDoesNotReprompt(w: World, grants: set<Permission>, started: bool)
    requires Valid(w) && w.pending == Some(ScanKinds)
    requires forall k | k in ScanKinds :: k in w.app.env.granted || k in grants
    ensures var r := Apply(w, Answer(grants, started));
            && r.world.pending.None?
            && ScanPermitted(r.world.app.env)
            && (ScanReady(r.world.app.env) ==> r.world.app.receivers == w.app.receivers + 1
                                               && r.world.app.devices == [])
  {
  }

  /** The same found broadcast twice leaves the list as the first one did,
      and the second one reports no inserted row. */
  lemma FoundTwiceIsFoundOnce(w: World, intent: Intent)
    requires Valid(w)
    ensures var once := Apply(w, Found(intent));
            var twice := Apply(once.world, Found(intent));
            twice.world == once.world && twice.log == []
  {
    var connect := w.app.env.Has(BluetoothConnect);
    var once := Apply(w, Found(intent));
    if w.app.receivers >= 1 {
      BroadcastIsReceiveOnce(connect, w.app.devices, intent, w.app.receivers);
      BroadcastIsReceiveOnce(connect, once.world.app.devices, intent, w.app.receivers);
      ReceiveIdempotent(connect, w.app.devices, intent);
    }
  }

  /** The entry a found event can add, whatever the CONNECT permission was. */
  ghost predicate EntryOf(x: string, e: Event) {
    && e.Found? && e.intent.device.Some?
    && (x == EntryFor(true, e.intent.device.value) || x == EntryFor(false, e.intent.device.value))
  }

  /** Every entry is one that was listed before or one rendered from a found event of the run. */
  ghost predicate FromEvents(x: string, before: seq<string>, events: seq<Event>) {
    x in before || exists i | 0 <= i < |events| :: EntryOf(x, events[i])
  }

  /** One event adds at most the entry of its own found device. */
  lemma ApplyProvenance(w: World, e: Event)
    requires Valid(w)
    ensures forall x | x in Apply(w, e).world.app.devices :: x in w.app.devices || EntryOf(x, e)
  {
    if e.Found? {
      var connect := w.app.env.Has(BluetoothConnect);
      if w.app.receivers >= 1 {
        BroadcastIsReceiveOnce(connect, w.app.devices, e.intent, w.app.receivers);
      }
    }
  }

  /** The list only ever holds entries rendered from found broadcasts: after
      any event sequence, every entry was already listed at the start or is
      the entry of a device some found event of the sequence carried. */
  lemma {:induction false} RunProvenance(w: World, events: seq<Event>)
    requires Valid(w)
    ensures forall x | x in Run(w, events).world.app.devices :: FromEvents(x, w.app.devices, events)
    decreases |events|
  {
    if |events| > 0 {
      var first := Apply(w, events[0]);
      ApplyProvenance(w, events[0]);
      RunProvenance(first.world, events[1..]);
      forall x | x in Run(w, events).world.app.devices
        ensures FromEvents(x, w.app.devices, events)
      {
        assert FromEvents(x, first.world.app.devices, events[1..]);
        if x in first.world.app.devices {
          if x !in w.app.devices {
            assert EntryOf(x, events[0]);
          }
        } else {
          var i :| 0 <= i < |events[1..]| && EntryOf(x, events[1..][i]);
          assert EntryOf(x, events[i + 1]);
        }
      }
    }
  }
}
